=== FILE: README.md ===
# Media types: a verified model

This project models the Innmind MediaType library in Dafny. The library parses, validates and serialises Internet media types of the form `type/subtype+suffix; name=value, ...`, following RFC 6838. It has two immutable value classes:

- **`Parameter`**: a `name=value` pair. The name must be a restricted name. The value is stored verbatim by the constructor. Parsing accepts only an unquoted token `[A-Za-z0-9_.-]+`.
- **`MediaType`**: a top level from a fixed set of ten, a subtype, an optional suffix (the empty string means none) and an ordered list of parameters.

A media type is built in one of three ways:

- the validating constructor;
- the fallible parser `maybe`, which yields an optional value;
- the strict parser `of`, which raises `DomainException` carrying the input.

Both parsers go through the same steps. First an unanchored pre-filter. Then a split on `[;,] ?`. Then an anchored capture of the head `topLevel/subType(+suffix)?`. Finally every later fragment is parsed as a parameter. `toString` is canonical: parameters are always written as `; a, b, c`.

Modules, one per component:

- `Wrappers`: `Option`, `Result` and the two error kinds, each carrying its offending string: `InvalidTopLevelType` and `DomainException`.
- `Grammar`: the restricted-name grammar, which is the `FORMAT` expression, and the value class.
- `Parameters`: the `Parameter` class.
- `Splitting`: the `[;,] ?` splitter and the `, ` joiner.
- `MediaTypes`: the `MediaType` class.
- `MediaTypeProperties`: the properties that relate its operations.
- `Examples`: the library's own test vectors.

The accessors (`name()`, `value()`, `topLevel()`, `subType()`, `suffix()`, `parameters()`) are the datatype fields.

Where the code and its tests disagree, the model follows the code:

- `Parameter::of` only accepts the value class `[\w\-.]+`. Quoted values are therefore rejected: `charset="UTF-8"` does not parse (`Examples.QuotedParameterRejected`), so `application/octet-stream;charset="UTF-8"` yields no media type (`MediaTypeProperties.OneBadParameterRejectsAll`). tests/MediaTypeTest.php:98-114 expects the quotes to be stripped. Neither the wider `token` character class of section 5.6.2 of RFC 9110 nor its `quoted-string` form (section 5.6.4 of RFC 9110) is accepted by this version of the code.
- The `Parameter` constructor rejects any name that is not a restricted name. tests/ParameterTest.php:22-33 assumes any non-empty name is accepted.
- `Parameter::of` is declared to return `Parameter`, but as written it errors on every input. The capture's `get` returns an optional value: src/MediaType.php:213-215 passes such results to `Maybe::all` and calls `otherwise` on them. So src/Parameter.php:35-36 calls `toString` on an optional value whether or not the expression matched. `MediaType` also consumes the result of `Parameter::of` as an optional value (src/MediaType.php:229). The model follows that evident intent for every input: `Some` of the parameter when the expression matches, `None` otherwise.
- The pre-filter (src/MediaType.php:163-171) is unanchored and its top-level alternation is not grouped. It therefore matches any string that contains `application` (or one of eight other top levels), or that contains `video/` followed by a letter or digit. `MediaTypes.PreFilter` models it as written. `MediaTypeProperties.PreFilterOfHead` proves it never rejects a string that the rest of the parse accepts.

## Model

| member | source | states |
|---|---|---|
| `Grammar.IsRestrictedName` | src/MediaType.php:23 | Definition of the anchored `FORMAT` expression, which src/Parameter.php:12 repeats. Its partners are `MatchesRestrictedName`, which decides it by a scan, and `TopLevelsShape`. |
| `Grammar.MatchesRestrictedName` | src/MediaType.php:23 | A left-to-right scan accepts exactly the restricted names: a letter or digit, then up to 126 characters from `[A-Za-z0-9!#$&^_.-]`, so 1 to 127 characters in all. |
| `Parameters.Parameter.ToString` | src/Parameter.php:50-57 | For a valid parameter, the first `=` of the text ends the name, so the name and the value can be read back from the text. The partner `OfToString` closes the round trip. |
| `Parameters.Capture` | src/Parameter.php:32 | The two captures of the key/value expression: a restricted name and a value token that, joined by `=`, make up the whole string. The partner `OfExactly` gives the converse. |
| `Parameters.New` | src/Parameter.php:17-27 | The constructor succeeds exactly when the name is a restricted name, and the empty name is not one. On success it stores the name and value unchanged. Otherwise it raises `DomainException` carrying the name. |
| `Parameters.Of` | src/Parameter.php:29-38 | A parsed parameter has a valid name and a token value, and serialises back to exactly the parsed text. |
| `Parameters.CapturePassesConstructor` | src/Parameter.php:32-37 | The key the parse expression captures always passes the constructor's name check, so the constructor call at src/Parameter.php:34 never raises `DomainException`. |
| `Parameters.OfExactly` | src/Parameter.php:31-37 | Parsing yields `p` if and only if the text is `p.name=p.value`, the name is a restricted name and the value is a non-empty run of `[A-Za-z0-9_.-]`. |
| `Parameters.OfToString` | src/Parameter.php:50-57 | Serialise then parse returns the same parameter for every valid parameter with a token value. |
| `Parameters.OfRejectsDelimiter` | src/Parameter.php:32 | A fragment with a double quote, a space, a semicolon or a comma anywhere is rejected. This includes a leading space and a quoted value. |
| `Parameters.OfRejectsEmptyValue` | src/Parameter.php:32 | `key=` with an empty value is rejected, whatever the key. |
| `Splitting.Split` | src/MediaType.php:82 | Splitting on `[;,] ?` gives at least one fragment. The first fragment is the text before the first `;` or `,`. No fragment contains a separator. |
| `Splitting.SplitAfter` | src/MediaType.php:82 | After a separator-free head, a `;`, `,`, `; ` or `, ` is consumed whole. One following space is taken greedily. The rest is split independently. |
| `Splitting.Join` | src/MediaType.php:131 | `join` of a non-empty list starts with its first part. Its partner `SplitJoin` proves that splitting undoes joining with `, `. |
| `Splitting.SplitJoin` | src/MediaType.php:131 | Splitting undoes joining with `, `, for any separator-free parts. |
| `Splitting.SplitInterleave` | src/MediaType.php:82 | A head followed by fragments, with any mix of `;`, `,`, `; ` and `, ` between them, splits back into that head and those fragments. |
| `MediaTypes.IsTopLevel` | src/MediaType.php:147-161 | Definition of membership in `topLevels`, the ten words in declaration order. Its partner is `TopLevelsShape`. |
| `MediaTypes.Construct` | src/MediaType.php:34-59 | Checks run in source order. A top level outside the set fails with `InvalidTopLevelType` carrying it. Next, a bad subtype fails with `DomainException` carrying the subtype. Next, a non-empty bad suffix fails with `DomainException` carrying the suffix. Success happens exactly when all three checks pass. It stores every component unchanged, with parameters in order and duplicates kept. |
| `MediaTypes.Null` | src/MediaType.php:98-101 | The sentinel is a valid `application/octet-stream` with no suffix and no parameters. |
| `MediaTypes.Capture` | src/MediaType.php:202-219 | A captured head is valid: an allowed top level, a restricted-name subtype, and a suffix that is empty or a restricted name. Its text is exactly the captured string. |
| `MediaTypes.ParseEach` | src/MediaType.php:224-232 | The parameter fragments yield a list exactly when every fragment parses. The list has the same length, and each element is the parse of its fragment. |
| `MediaTypes.CaptureParameters` | src/MediaType.php:224-232 | An empty list of fragments yields nothing. Otherwise a list comes back exactly when every fragment parses. It has one parameter per fragment, each the parse of its fragment, in order. |
| `MediaTypes.Build` | src/MediaType.php:178-197 | From a captured head, assembly succeeds exactly when every parameter fragment parses; with no fragments it succeeds with no parameters. The result keeps the head and the parameters in order. |
| `MediaTypes.FilterMatchesAt` | src/MediaType.php:163-171 | Definition of where the ungrouped `pattern()` alternation can match: one of the first nine top-level words, or `video/` followed by a letter or digit. Its partner is `PreFilterOfHead`. |
| `MediaTypes.PreFilter` | src/MediaType.php:81 | Definition of the unanchored `matches(pattern())` filter: the pattern matches at some position. Its partner `PreFilterOfHead` proves it never changes the result of `maybe`. |
| `MediaTypes.MediaType.ToString` | src/MediaType.php:126-140 | The text is exactly the head `topLevel/subType(+suffix)` when, and only when, there are no parameters, because every serialised parameter is non-empty. Its partners are `ToStringLayout` (the full layout), `SplitToString` and `MaybeToString` (the round trip). |
| `MediaTypes.Maybe` | src/MediaType.php:78-93 | Every media type the fallible parser yields is valid, and all its parameter values are tokens. |
| `MediaTypes.Of` | src/MediaType.php:65-71 | The strict parser fails exactly when the fallible one yields nothing, and then raises `DomainException` carrying the whole input. Otherwise both parsers give the same result. |
| `MediaTypeProperties.TopLevelsShape` | src/MediaType.php:147-161 | The top-level set has ten distinct members, and each one is a restricted name. |
| `MediaTypeProperties.CaptureExactly` | src/MediaType.php:206-216 | The anchored head capture yields `head` if and only if the text is `head`'s `topLevel/subType(+suffix)` and `head` is valid. A missing suffix becomes "". |
| `MediaTypeProperties.PreFilterOfHead` | src/MediaType.php:163-171 | Whenever the head capture accepts the first fragment, the unanchored pre-filter passes. So the filter never changes the parse result. |
| `MediaTypeProperties.MaybeExactly` | src/MediaType.php:78-93 | The fallible parse yields a media type if and only if the first fragment is a valid head and every later fragment parses as a parameter. The result carries that head and those parameters in order. |
| `MediaTypeProperties.JoinedEmptyIffNoParameters` | src/MediaType.php:128-138 | The joined parameter text is empty exactly when there are no parameters, because every serialised parameter contains `=`. |
| `MediaTypeProperties.ToStringLayout` | src/MediaType.php:126-140 | Serialisation is the head text. `; ` and the parameters joined with `, ` follow if and only if there is at least one parameter. |
| `MediaTypeProperties.SplitToString` | src/MediaType.php:82 | For a valid media type whose parameter values are tokens, splitting the canonical text gives back the head text and each serialised parameter. A value holding `;` or `,`, which the constructor stores unchecked, would split further. |
| `MediaTypeProperties.MaybeOfSplit` | src/MediaType.php:80-92 | Suppose a string splits into a valid head's text and the texts of valid parameters with token values. Then it parses to exactly that media type. |
| `MediaTypeProperties.MaybeToString` | src/MediaType.php:126-140 | Round trip: parsing the serialisation of any valid media type whose parameter values are tokens gives that same media type back. |
| `MediaTypeProperties.MaybeAnySeparators` | src/MediaType.php:82-92 | A valid head followed by valid parameters with token values, after any mix of `;`, `,`, `; ` and `, ` parses to that head and those parameters in their original order. |
| `MediaTypeProperties.OneBadParameterRejectsAll` | src/MediaType.php:224-232 | If any single fragment fails to parse as a parameter, the whole string yields nothing. There is no partial result. |
| `MediaTypeProperties.ToStringIdempotent` | src/MediaType.php:126-140 | Whatever the fallible parser accepts, it accepts again after serialisation, with the same result. |
| `MediaTypeProperties.UnknownTopLevelRejected` | src/MediaType.php:207-218 | A string whose text before the first `/` is not an allowed top level never parses. The strict parser raises with the whole string. |
| `MediaTypeProperties.NullToString` | src/MediaType.php:98-101 | The sentinel serialises to `application/octet-stream`. |
| `Examples.ConstructedInterface` | tests/MediaTypeTest.php:23-35 | `application`, `json`, `whatever` and one `charset=UTF-8` parameter construct a media type that stores them unchanged. |
| `Examples.ConstructedInterfaceToString` | tests/MediaTypeTest.php:36 | That media type serialises to `application/json+whatever; charset=UTF-8`. |
| `Examples.PlainJson` | tests/MediaTypeTest.php:45-54 | `application/json` serialises as itself and parses back to the same value. |
| `Examples.QuotedParameterRejected` | tests/MediaTypeTest.php:98-114 | `charset="UTF-8"` is not a parameter under the code's value class. |
| `Examples.UnknownTopLevel` | tests/MediaTypeTest.php:132-140 | `unknown/json` yields nothing, and the strict parser raises with that string. |
| `Examples.NullSentinel` | tests/MediaTypeTest.php:39-43 | The sentinel is `application/octet-stream` and renders as such. |

## Left out

- The Innmind Immutable types (`Str`, `Sequence`, `Set`, `Maybe`) are replaced by `string`, `seq`, `Option` and `Result`. The top-level set is an ordered `seq` of distinct strings.
- The PCRE engine is replaced by hand-written predicates. `$` is read as the strict end of the string. PCRE also lets `$` match before one final `\n`, and the four anchored expressions are applied to constructor arguments and to split fragments. So a name, subtype, suffix, value or split fragment ending in one `\n` is matched by the source's anchored expressions. The source therefore accepts it, for `Parameter::of` and for `maybe` with parameters under the `Option` reading above, and the model rejects it. Examples: `maybe("text/plain\n;a=b")`, `new MediaType('text', "plain\n")`, `new Parameter("a\n", 'v')` and `Parameter::of("a=b\n")`.
- `\w` is read as ASCII `[A-Za-z0-9_]`. Locale-dependent word characters are not modelled.
- Strings are sequences of characters. Byte encodings and multibyte handling in `Str` are not modelled.
- `Parameters.Of`: as written, the source raises a PHP error on every input, because it calls `toString` on the optional captures. The model returns `Some` of the parameter when the expression matches and `None` otherwise, which is how `MediaType` consumes the result.
- Quoted parameter values (`quoted-string`, section 5.6.4 of RFC 9110) and the wider `token` character class (section 5.6.2 of RFC 9110) are not accepted, because this version of the code does not accept them. tests/MediaTypeTest.php:98-114 expects quoted values to be unquoted.
- The exception class hierarchy, messages other than the payload string, and the static-analysis annotations are not modelled.
- The concrete mixed-separator example and the quoted example at media-type level are not restated on their literal strings. They are covered for all inputs by `MaybeAnySeparators` and `OneBadParameterRejectsAll`.
- The property-based fixtures and generators are not modelled. They only show the intended domain of values.

=== FILE: examples.dfy ===
/** The library's own test vectors, restated against the model. */
module Examples {
  import opened Wrappers
  import opened Grammar
  import opened Splitting
  import Parameters
  import opened MediaTypes
  import opened MediaTypeProperties

  lemma ApplicationIsTopLevel()
    ensures IsTopLevel("application")
  {
    assert TopLevels[0] == "application";
  }

  /** A constructed type with a suffix and one parameter keeps its parts. */
  lemma ConstructedInterface()
    ensures Construct("application", "json", "whatever", [Parameters.Parameter("charset", "UTF-8")])
            == Success(MediaType("application", "json", "whatever", [Parameters.Parameter("charset", "UTF-8")]))
  {
    ApplicationIsTopLevel();
    assert IsRestrictedName("json");
    assert IsRestrictedName("whatever");
  }

  /** The head text of the constructed type. */
  lemma InterfaceHeadText()
    ensures Head("application", "json", "whatever").ToString() == "application/json+whatever"
  {
  }

  /** The one parameter of the constructed type, serialised and joined. */
  lemma CharsetJoined()
    ensures Join(", ", Rendered([Parameters.Parameter("charset", "UTF-8")])) == "charset=UTF-8"
  {
    assert Parameters.Parameter("charset", "UTF-8").ToString() == "charset=UTF-8";
    assert Rendered([Parameters.Parameter("charset", "UTF-8")]) == ["charset=UTF-8"];
  }

  /** ... and renders them canonically. */
  lemma ConstructedInterfaceToString()
    ensures MediaType("application", "json", "whatever", [Parameters.Parameter("charset", "UTF-8")]).ToString()
            == "application/json+whatever; charset=UTF-8"
  {
    var m := MediaType("application", "json", "whatever", [Parameters.Parameter("charset", "UTF-8")]);
    assert m.ToString() == "application/json+whatever" + "; " + "charset=UTF-8" by {
      ToStringLayout(m);
      InterfaceHeadText();
      CharsetJoined();
    }
  }

  /** `application/json` is constructed with no suffix and no parameters. */
  lemma JsonConstructed()
    ensures Construct("application", "json", "", []) == Success(MediaType("application", "json", "", []))
  {
    ApplicationIsTopLevel();
    assert IsRestrictedName("json");
  }

  /** `application/json` renders and parses back unchanged. */
  lemma PlainJson()
    ensures Construct("application", "json", "", []).Success?
    ensures Construct("application", "json", "", []).value.ToString() == "application/json"
    ensures Maybe("application/json") == Some(Construct("application", "json", "", []).value)
  {
    JsonConstructed();
    var m := MediaType("application", "json", "", []);
    assert m.Essence().ToString() == "application/json";
    MaybeToString(m);
  }

  /** A quoted value does not parse as a parameter. */
  lemma QuotedParameterRejected()
    ensures Parameters.Of("charset=\"UTF-8\"") == None
  {
    assert "charset=\"UTF-8\""[8] == '"';
    Parameters.OfRejectsDelimiter("charset=\"UTF-8\"", 8);
  }

  /** An unknown top level yields nothing from `Maybe` and raises from `Of`. */
  lemma UnknownTopLevel()
    ensures Maybe("unknown/json") == None
    ensures MediaTypes.Of("unknown/json") == Failure(DomainException("unknown/json"))
  {
    assert "unknown/json" == "unknown" + "/" + "json";
    UnknownTopLevelRejected("unknown", "json");
  }

  /** The sentinel is `application/octet-stream`. */
  lemma NullSentinel()
    ensures Null() == MediaType("application", "octet-stream", "", [])
    ensures Null().ToString() == "application/octet-stream"
  {
    NullToString();
  }
}

=== FILE: grammar.dfy ===
/** The character-level grammar shared by media types and parameters: the
    restricted-name production of section 4.2 of RFC 6838 (without `+`,
    which the library leaves out of the allowed characters) and the
    unquoted parameter value class. */
module Grammar {

  /** Longest restricted name: one leading character and up to 126 more. */
  const MaxNameLength: nat := 127

  /** `[A-Za-z0-9]`, the class of a name's first character. */
  predicate IsAlnum(c: char) {
    ('A' <= c <= 'Z') || ('a' <= c <= 'z') || ('0' <= c <= '9')
  }

  /** `[A-Za-z0-9!#$&^_.-]`, the class of a name's later characters. */
  predicate IsNameChar(c: char) {
    IsAlnum(c) || c == '!' || c == '#' || c == '$' || c == '&' || c == '^'
    || c == '_' || c == '.' || c == '-'
  }

  /** The anchored `FORMAT` regular expression. PCRE's `$` would also match
      before one trailing newline; here the end of the string is strict. */
  predicate IsRestrictedName(s: string) {
    && 1 <= |s| <= MaxNameLength
    && IsAlnum(s[0])
    && forall i :: 1 <= i < |s| ==> IsNameChar(s[i])
  }

  /** `[\w\-.]` with `\w` read as ASCII `[A-Za-z0-9_]`. */
  predicate IsValueChar(c: char) {
    IsAlnum(c) || c == '_' || c == '-' || c == '.'
  }

  /** `[\w\-.]+`: a non-empty run of value characters. */
  predicate IsValueToken(s: string) {
    |s| >= 1 && forall i :: 0 <= i < |s| ==> IsValueChar(s[i])
  }

  /** Characters that no restricted name and no value token contains. */
  predicate IsDelimiter(c: char) {
    c == '/' || c == '+' || c == '=' || c == ';' || c == ',' || c == ' ' || c == '"'
  }

  /** `c` does not occur in `s`. */
  predicate Lacks(s: string, c: char) {
    forall j :: 0 <= j < |s| ==> s[j] != c
  }

  /** Index of the first occurrence of `c` in `s`, or `|s|` when absent. */
  function FirstIndexOf(s: string, c: char): (i: nat)
    ensures i <= |s|
    ensures i < |s| ==> s[i] == c
    ensures forall j :: 0 <= j < i ==> s[j] != c
    decreases |s|
  {
    if |s| == 0 then 0
    else if s[0] == c then 0
    else 1 + FirstIndexOf(s[1..], c)
  }

  /** The first occurrence of `c` in `x + [c] + y` is just after `x` when
      `x` does not contain `c`. */
  lemma FirstIndexOfAfter(x: string, c: char, y: string)
    requires Lacks(x, c)
    ensures FirstIndexOf(x + [c] + y, c) == |x|
  {
    var s := x + [c] + y;
    assert s[|x|] == c;
  }

  /** A string is what precedes its `i`th character, that character, and
      what follows it. */
  lemma CutAt(s: string, i: nat)
    requires i <= |s|
    ensures i < |s| ==> s == s[..i] + [s[i]] + s[i + 1..]
  {
  }

  /** No restricted name contains a delimiter. */
  lemma NameHasNoDelimiter(s: string)
    requires IsRestrictedName(s)
    ensures forall i :: 0 <= i < |s| ==> !IsDelimiter(s[i])
  {
  }

  /** In particular a restricted name lacks each delimiter. */
  lemma NameLacks(s: string, c: char)
    requires IsRestrictedName(s) && IsDelimiter(c)
    ensures Lacks(s, c)
  {
    NameHasNoDelimiter(s);
  }

  /** No value token contains a delimiter. */
  lemma TokenHasNoDelimiter(s: string)
    requires IsValueToken(s)
    ensures forall i :: 0 <= i < |s| ==> !IsDelimiter(s[i])
  {
  }

  /** Decides `IsRestrictedName` by one left-to-right scan, as the regular
      expression engine does for `~^FORMAT$~`. */
  method MatchesRestrictedName(s: string) returns (ok: bool)
    ensures ok <==> IsRestrictedName(s)
  {
    if |s| == 0 || |s| > MaxNameLength || !IsAlnum(s[0]) {
      return false;
    }
    var i := 1;
    while i < |s|
      invariant 1 <= i <= |s|
      invariant forall j :: 1 <= j < i ==> IsNameChar(s[j])
    {
      if !IsNameChar(s[i]) {
        return false;
      }
      i := i + 1;
    }
    return true;
  }
}

=== FILE: media_type.dfy ===
/** A media type `topLevel/subType+suffix; name=value, ...`: its
    validating constructor, its two parsers and its canonical
    serialisation. */
module MediaTypes {
  import opened Wrappers
  import opened Grammar
  import opened Splitting
  import Parameters

  type Parameter = Parameters.Parameter

  /** The allowed top-level types, in declaration order. */
  const TopLevels: seq<string> :=
    ["application", "audio", "font", "example", "image",
     "message", "model", "multipart", "text", "video"]

  predicate IsTopLevel(t: string) {
    t in TopLevels
  }

  /** The constructor's checks on the three textual components. */
  predicate ValidComponents(topLevel: string, subType: string, suffix: string) {
    && IsTopLevel(topLevel)
    && IsRestrictedName(subType)
    && (suffix == "" || IsRestrictedName(suffix))
  }

  /** `topLevel/subType` with `+suffix` when the suffix is not empty. */
  datatype Head = Head(topLevel: string, subType: string, suffix: string) {

    predicate Valid() {
      ValidComponents(topLevel, subType, suffix)
    }

    function ToString(): string {
      topLevel + "/" + subType + (if suffix != "" then "+" + suffix else "")
    }
  }

  /** The parameters serialised one by one. */
  function Rendered(parameters: seq<Parameter>): (r: seq<string>)
    ensures |r| == |parameters|
    ensures forall i :: 0 <= i < |r| ==> r[i] == parameters[i].ToString()
  {
    seq(|parameters|, i requires 0 <= i < |parameters| => parameters[i].ToString())
  }

  /** A media type as the constructor stores it. The empty suffix stands for
      no suffix; parameters keep their order and their duplicates. */
  datatype MediaType = MediaType(
    topLevel: string,
    subType: string,
    suffix: string,
    parameters: seq<Parameter>)
  {
    /** What every constructed media type satisfies. */
    predicate Valid() {
      && ValidComponents(topLevel, subType, suffix)
      && forall i :: 0 <= i < |parameters| ==> parameters[i].Valid()
    }

    /** What every parsed media type satisfies besides `Valid`. */
    predicate HasTokenValues() {
      forall i :: 0 <= i < |parameters| ==> parameters[i].HasTokenValue()
    }

    /** The media type without its parameters. */
    function Essence(): Head {
      Head(topLevel, subType, suffix)
    }

    /** Canonical text: the head, then `; ` and the serialised parameters
        joined with `, ` when that join is not empty. */
    function ToString(): (r: string)
      ensures parameters == [] <==> r == Essence().ToString()
    {
      var joined := Join(", ", Rendered(parameters));
      assert parameters != [] ==> |joined| >= |parameters[0].ToString()| >= 1;
      Essence().ToString() + (if joined != "" then "; " + joined else "")
    }
  }

  /** The constructor: checks the top level, then the subtype, then a
      non-empty suffix, and raises on the first failure with the offending
      string. Parameters are stored as given. */
  function Construct(topLevel: string, subType: string, suffix: string, parameters: seq<Parameter>)
    : (r: Result<MediaType, Error>)
    ensures !IsTopLevel(topLevel) ==> r == Failure(InvalidTopLevelType(topLevel))
    ensures IsTopLevel(topLevel) && !IsRestrictedName(subType) ==> r == Failure(DomainException(subType))
    ensures (IsTopLevel(topLevel) && IsRestrictedName(subType) && suffix != "" && !IsRestrictedName(suffix))
            ==> r == Failure(DomainException(suffix))
    ensures r.Success? <==> ValidComponents(topLevel, subType, suffix)
    ensures r.Success? ==> r.value.topLevel == topLevel && r.value.subType == subType
                           && r.value.suffix == suffix && r.value.parameters == parameters
    ensures r.Success? ==> (r.value.Valid() <==> forall i :: 0 <= i < |parameters| ==> parameters[i].Valid())
  {
    if !IsTopLevel(topLevel) then Failure(InvalidTopLevelType(topLevel))
    else if !IsRestrictedName(subType) then Failure(DomainException(subType))
    else if suffix != "" && !IsRestrictedName(suffix) then Failure(DomainException(suffix))
    else Success(MediaType(topLevel, subType, suffix, parameters))
  }

  /** The `null` sentinel: `application/octet-stream`, no suffix, no
      parameters. */
  function Null(): (m: MediaType)
    ensures m.Valid()
    ensures m.topLevel == "application" && m.subType == "octet-stream"
    ensures m.suffix == "" && m.parameters == []
  {
    Construct("application", "octet-stream", "", []).value
  }

  /** Cutting `h` at a `/` and then at a `+` (or at the end) gives the
      parts whose head text is `h` again. */
  lemma HeadText(h: string, slash: nat, plus: nat)
    requires slash < |h| && h[slash] == '/'
    requires plus <= |h| - slash - 1
    requires plus < |h| - slash - 1 ==> h[slash + 1 + plus] == '+' && plus + 2 < |h| - slash
    ensures h == Head(h[..slash], h[slash + 1..][..plus],
                      if plus == |h| - slash - 1 then "" else h[slash + 1..][plus + 1..]).ToString()
  {
    var rest := h[slash + 1..];
    assert h == h[..slash] + "/" + rest;
    if plus == |rest| {
      assert rest[..plus] == rest;
    } else {
      assert rest == rest[..plus] + "+" + rest[plus + 1..];
    }
  }

  /** The captures of the anchored head expression
      `~^(topLevels)/(FORMAT)(\+(FORMAT))?$~`, a missing suffix read as "".
      No name holds `/` or `+`, so the top level ends at the first `/` and
      the subtype at the next `+`. */
  function Capture(h: string): (r: Option<Head>)
    ensures r.Some? ==> r.value.Valid() && r.value.ToString() == h
  {
    var slash := FirstIndexOf(h, '/');
    if slash == |h| then None
    else
      var topLevel := h[..slash];
      var rest := h[slash + 1..];
      var plus := FirstIndexOf(rest, '+');
      var subType := rest[..plus];
      var suffix := if plus == |rest| then "" else rest[plus + 1..];
      if IsTopLevel(topLevel) && IsRestrictedName(subType)
         && (plus == |rest| || IsRestrictedName(suffix))
      then
        HeadText(h, slash, plus);
        Some(Head(topLevel, subType, suffix))
      else
        None
  }

  /** Parses every fragment as a parameter; one failure fails them all. */
  function ParseEach(fragments: seq<string>): (r: Option<seq<Parameter>>)
    ensures r.Some? <==> forall i :: 0 <= i < |fragments| ==> Parameters.Of(fragments[i]).Some?
    ensures r.Some? ==> |r.value| == |fragments|
    ensures r.Some? ==> forall i :: 0 <= i < |fragments| ==> Parameters.Of(fragments[i]) == Some(r.value[i])
    decreases |fragments|
  {
    if |fragments| == 0 then Some([])
    else
      match (Parameters.Of(fragments[0]), ParseEach(fragments[1..]))
      case (Some(p), Some(ps)) => Some([p] + ps)
      case _ => None
  }

  /** `captureParameters`: nothing for an empty list, otherwise every
      fragment parsed. */
  function CaptureParameters(fragments: seq<string>): (r: Option<seq<Parameter>>)
    ensures r.Some? <==>
              |fragments| > 0 && forall i :: 0 <= i < |fragments| ==> Parameters.Of(fragments[i]).Some?
    ensures r.Some? ==> |r.value| == |fragments|
    ensures r.Some? ==> forall i :: 0 <= i < |fragments| ==> Parameters.Of(fragments[i]) == Some(r.value[i])
  {
    if |fragments| == 0 then None else ParseEach(fragments)
  }

  /** `build`: a captured head and the parameter fragments handed to the
      constructor, which cannot raise on a captured head. */
  function Build(head: Head, fragments: seq<string>): (r: Option<MediaType>)
    requires head.Valid()
    ensures r.Some? <==> forall i :: 0 <= i < |fragments| ==> Parameters.Of(fragments[i]).Some?
    ensures r.Some? ==> r.value.Essence() == head && |r.value.parameters| == |fragments|
    ensures r.Some? ==> forall i :: 0 <= i < |fragments| ==> Parameters.Of(fragments[i]) == Some(r.value.parameters[i])
  {
    if |fragments| == 0 then
      Some(Construct(head.topLevel, head.subType, head.suffix, []).value)
    else
      match CaptureParameters(fragments)
      case None => None
      case Some(ps) => Some(Construct(head.topLevel, head.subType, head.suffix, ps).value)
  }

  /** Does the pre-filter match at the start of `t`? Its top-level
      alternation is not grouped, so its alternatives are the first nine
      top-level words on their own and `video/` followed by a name. */
  predicate FilterMatchesAt(t: string) {
    || (exists k :: 0 <= k < |TopLevels| - 1 && TopLevels[k] <= t)
    || (|t| > 6 && t[..6] == "video/" && IsAlnum(t[6]))
  }

  /** The unanchored pre-filter: it matches somewhere in `s`. */
  predicate PreFilter(s: string)
    decreases |s|
  {
    FilterMatchesAt(s) || (|s| > 0 && PreFilter(s[1..]))
  }

  /** `maybe`: the pre-filter, then the split on `[;,] ?`, then the head
      capture of the first fragment and the parameters of the others. */
  function Maybe(s: string): (r: Option<MediaType>)
    ensures r.Some? ==> r.value.Valid() && r.value.HasTokenValues()
  {
    if !PreFilter(s) then None
    else
      var splits := Split(s);
      match Capture(splits[0])
      case None => None
      case Some(head) => Build(head, splits[1..])
  }

  /** `of`: `maybe`, raising with the whole input when it yields nothing. */
  function Of(s: string): (r: Result<MediaType, Error>)
    ensures r.Failure? <==> Maybe(s).None?
    ensures r.Failure? ==> r.error == DomainException(s)
    ensures r.Success? ==> r.value.Valid() && Maybe(s) == Some(r.value)
  {
    match Maybe(s)
    case Some(m) => Success(m)
    case None => Failure(DomainException(s))
  }
}

=== FILE: media_type_properties.dfy ===
/** Properties of the media type model: what the head capture and the
    parsers accept, that the pre-filter never decides anything, and that
    parsing inverts canonical serialisation. */
module MediaTypeProperties {
  import opened Wrappers
  import opened Grammar
  import opened Splitting
  import Parameters
  import opened MediaTypes

  /** The top-level set has ten distinct members, each a restricted name. */
  lemma TopLevelsShape()
    ensures |TopLevels| == 10
    ensures forall k :: 0 <= k < |TopLevels| ==> IsRestrictedName(TopLevels[k])
    ensures forall j, k :: 0 <= j < k < |TopLevels| ==> TopLevels[j] != TopLevels[k]
  {
  }

  /** The head capture accepts exactly the texts of valid heads, and
      returns that head. */
  lemma CaptureExactly(h: string, head: Head)
    ensures Capture(h) == Some(head) <==> (head.Valid() && h == head.ToString())
  {
    if head.Valid() && h == head.ToString() {
      TopLevelsShape();
      NameLacks(head.topLevel, '/');
      NameLacks(head.subType, '+');
      var rest := head.subType + (if head.suffix != "" then "+" + head.suffix else "");
      assert h == head.topLevel + ['/'] + rest;
      FirstIndexOfAfter(head.topLevel, '/', rest);
      var slash := FirstIndexOf(h, '/');
      assert h[..slash] == head.topLevel;
      assert h[slash + 1..] == rest;
      if head.suffix == "" {
        assert rest == head.subType;
        assert FirstIndexOf(rest, '+') == |rest|;
        assert rest[..|rest|] == head.subType;
      } else {
        assert rest == head.subType + ['+'] + head.suffix;
        FirstIndexOfAfter(head.subType, '+', head.suffix);
        var plus := FirstIndexOf(rest, '+');
        assert rest[..plus] == head.subType;
        assert rest[plus + 1..] == head.suffix;
      }
    }
  }

  /** The pre-filter passes every string whose first fragment the head
      capture accepts, so dropping it would not change `Maybe`. */
  lemma PreFilterOfHead(s: string)
    requires Capture(Split(s)[0]).Some?
    ensures PreFilter(s)
  {
    var h := Split(s)[0];
    var head := Capture(h).value;
    assert h == s[..|h|];
    var k :| 0 <= k < |TopLevels| && TopLevels[k] == head.topLevel;
    if k < |TopLevels| - 1 {
      assert TopLevels[k] == s[..|TopLevels[k]|];
      assert TopLevels[k] <= s;
    } else {
      assert h[..6] == "video/";
      assert s[..6] == "video/";
      assert s[6] == h[6] == head.subType[0];
    }
    assert FilterMatchesAt(s);
  }

  /** `Maybe` yields a media type exactly when the head capture accepts
      the first fragment and every later fragment parses as a parameter;
      the result carries the captured head and the parsed parameters in
      fragment order. */
  lemma MaybeExactly(s: string)
    ensures Maybe(s).Some? <==>
              && Capture(Split(s)[0]).Some?
              && forall i :: 1 <= i < |Split(s)| ==> Parameters.Of(Split(s)[i]).Some?
    ensures Maybe(s).Some? ==>
              && Maybe(s).value.Essence() == Capture(Split(s)[0]).value
              && |Maybe(s).value.parameters| == |Split(s)| - 1
              && forall i :: 0 <= i < |Maybe(s).value.parameters| ==>
                   Parameters.Of(Split(s)[i + 1]) == Some(Maybe(s).value.parameters[i])
  {
    var splits := Split(s);
    var fragments := splits[1..];
    if Capture(splits[0]).Some? {
      var head := Capture(splits[0]).value;
      PreFilterOfHead(s);
      assert Maybe(s) == Build(head, fragments);
      assert forall i :: 1 <= i < |splits| ==> splits[i] == fragments[i - 1];
    }
  }

  /** No separator occurs in the text of a valid head. */
  lemma HeadHasNoSeparator(head: Head)
    requires head.Valid()
    ensures NoSeparator(head.ToString())
  {
    TopLevelsShape();
    NameHasNoDelimiter(head.topLevel);
    NameHasNoDelimiter(head.subType);
    if head.suffix != "" {
      NameHasNoDelimiter(head.suffix);
    }
  }

  /** No separator occurs in the text of a parameter with a token value. */
  lemma ParameterHasNoSeparator(p: Parameter)
    requires p.Valid() && p.HasTokenValue()
    ensures NoSeparator(p.ToString())
  {
    NameHasNoDelimiter(p.name);
    TokenHasNoDelimiter(p.value);
  }

  /** The joined parameters are empty exactly when there are none, since
      every serialised parameter holds `=`. */
  lemma JoinedEmptyIffNoParameters(ps: seq<Parameter>)
    ensures Join(", ", Rendered(ps)) == "" <==> ps == []
  {
    if ps != [] {
      var r := Rendered(ps);
      assert |r[0]| >= 1;
      if |r| == 1 {
        assert Join(", ", r) == r[0];
      } else {
        assert Join(", ", r) == r[0] + ", " + Join(", ", r[1..]);
      }
    }
  }

  /** The canonical text: the head, then `; ` and the parameters joined
      with `, ` exactly when there are parameters. */
  lemma ToStringLayout(m: MediaType)
    ensures m.parameters == [] ==> m.ToString() == m.Essence().ToString()
    ensures m.parameters != [] ==>
              m.ToString() == m.Essence().ToString() + "; " + Join(", ", Rendered(m.parameters))
  {
    JoinedEmptyIffNoParameters(m.parameters);
  }

  /** Splitting the canonical text recovers the head and each serialised
      parameter. */
  lemma SplitToString(m: MediaType)
    requires m.Valid() && m.HasTokenValues()
    ensures Split(m.ToString()) == [m.Essence().ToString()] + Rendered(m.parameters)
  {
    var h := m.Essence().ToString();
    var r := Rendered(m.parameters);
    HeadHasNoSeparator(m.Essence());
    ToStringLayout(m);
    if m.parameters == [] {
      SplitPlain(h);
    } else {
      forall k | 0 <= k < |r|
        ensures NoSeparator(r[k])
      {
        ParameterHasNoSeparator(m.parameters[k]);
      }
      SplitJoin(r);
      SplitAfter(h, "; ", Join(", ", r));
    }
  }

  /** A string that splits into the text of a valid head and the texts
      of valid parameters with token values parses to exactly that media
      type. */
  lemma MaybeOfSplit(s: string, head: Head, ps: seq<Parameter>)
    requires head.Valid()
    requires forall k :: 0 <= k < |ps| ==> ps[k].Valid() && ps[k].HasTokenValue()
    requires Split(s) == [head.ToString()] + Rendered(ps)
    ensures Maybe(s) == Some(MediaType(head.topLevel, head.subType, head.suffix, ps))
  {
    var splits := Split(s);
    var r := Rendered(ps);
    CaptureExactly(splits[0], head);
    MaybeExactly(s);
    assert splits[1..] == r;
    forall i | 0 <= i < |r|
      ensures Parameters.Of(r[i]) == Some(ps[i])
    {
      Parameters.OfToString(ps[i]);
    }
    assert Maybe(s).value.parameters == ps;
  }

  /** Parse-after-serialise is the identity on every valid media type
      whose parameter values are tokens. */
  lemma MaybeToString(m: MediaType)
    requires m.Valid() && m.HasTokenValues()
    ensures Maybe(m.ToString()) == Some(m)
  {
    SplitToString(m);
    MaybeOfSplit(m.ToString(), m.Essence(), m.parameters);
  }

  /** Serialised parameters may follow any separator text. */
  lemma RenderedCanFollow(seps: seq<string>, ps: seq<Parameter>)
    requires |seps| == |ps|
    requires forall k :: 0 <= k < |seps| ==> IsSeparatorText(seps[k])
    requires forall k :: 0 <= k < |ps| ==> ps[k].Valid() && ps[k].HasTokenValue()
    ensures forall k :: 0 <= k < |ps| ==>
              NoSeparator(Rendered(ps)[k]) && CanFollow(seps[k], Rendered(ps)[k])
  {
    var r := Rendered(ps);
    forall k | 0 <= k < |ps|
      ensures NoSeparator(r[k]) && CanFollow(seps[k], r[k])
    {
      ParameterHasNoSeparator(ps[k]);
      assert r[k][0] == ps[k].name[0];
    }
  }

  /** A head followed by serialised parameters, each after any of `;`,
      `,`, `; ` or `, `, parses to that head and those parameters in
      order. */
  lemma MaybeAnySeparators(head: Head, seps: seq<string>, ps: seq<Parameter>)
    requires head.Valid()
    requires |seps| == |ps|
    requires forall k :: 0 <= k < |seps| ==> IsSeparatorText(seps[k])
    requires forall k :: 0 <= k < |ps| ==> ps[k].Valid() && ps[k].HasTokenValue()
    ensures Maybe(head.ToString() + Interleave(seps, Rendered(ps)))
            == Some(MediaType(head.topLevel, head.subType, head.suffix, ps))
  {
    HeadHasNoSeparator(head);
    RenderedCanFollow(seps, ps);
    SplitInterleave(head.ToString(), seps, Rendered(ps));
    MaybeOfSplit(head.ToString() + Interleave(seps, Rendered(ps)), head, ps);
  }

  /** One fragment that does not parse as a parameter rejects the whole
      string: there is no partial result. */
  lemma OneBadParameterRejectsAll(head: Head, seps: seq<string>, parts: seq<string>, k: nat)
    requires head.Valid()
    requires |seps| == |parts|
    requires forall j :: 0 <= j < |parts| ==> NoSeparator(parts[j]) && CanFollow(seps[j], parts[j])
    requires k < |parts| && Parameters.Of(parts[k]) == None
    ensures Maybe(head.ToString() + Interleave(seps, parts)) == None
  {
    var s := head.ToString() + Interleave(seps, parts);
    HeadHasNoSeparator(head);
    SplitInterleave(head.ToString(), seps, parts);
    MaybeExactly(s);
    assert Split(s)[k + 1] == parts[k];
  }

  /** Whatever `Maybe` accepts, it accepts again once serialised, with
      the same result. */
  lemma ToStringIdempotent(s: string)
    requires Maybe(s).Some?
    ensures Maybe(Maybe(s).value.ToString()) == Maybe(s)
  {
    MaybeToString(Maybe(s).value);
  }

  /** In a string that starts with the text of a valid head, the text
      before the first `/` is the head's top level. */
  lemma TopLevelOfPrefix(s: string, head: Head)
    requires head.Valid() && head.ToString() <= s
    ensures s[..FirstIndexOf(s, '/')] == head.topLevel
  {
    TopLevelsShape();
    NameLacks(head.topLevel, '/');
    var n := |head.topLevel|;
    assert s[..n] == head.topLevel;
    assert s[n] == '/';
    assert s == head.topLevel + ['/'] + s[n + 1..];
    FirstIndexOfAfter(head.topLevel, '/', s[n + 1..]);
  }

  /** A string whose text before the first `/` is not a top-level type
      never parses, and `Of` raises with the whole string. */
  lemma UnknownTopLevelRejected(word: string, rest: string)
    requires Lacks(word, '/') && !IsTopLevel(word)
    ensures Maybe(word + "/" + rest) == None
    ensures MediaTypes.Of(word + "/" + rest) == Failure(DomainException(word + "/" + rest))
  {
    var s := word + "/" + rest;
    assert s == word + ['/'] + rest;
    FirstIndexOfAfter(word, '/', rest);
    assert s[..FirstIndexOf(s, '/')] == word;
    var h := Split(s)[0];
    assert h <= s;
    assert Capture(h) == None by {
      if Capture(h).Some? {
        TopLevelOfPrefix(s, Capture(h).value);
      }
    }
  }

  /** The sentinel renders as `application/octet-stream`. */
  lemma NullToString()
    ensures Null().ToString() == "application/octet-stream"
  {
    JoinedEmptyIffNoParameters([]);
  }
}

=== FILE: parameter.dfy ===
/** A media type parameter: a restricted name and a value, written
    `name=value`. */
module Parameters {
  import opened Wrappers
  import opened Grammar

  /** A parameter as the constructor stores it. The value is kept verbatim:
      only parsing restricts it. */
  datatype Parameter = Parameter(name: string, value: string) {

    /** The constructor's invariant: the name is a restricted name. */
    predicate Valid() {
      IsRestrictedName(name)
    }

    /** The values a parse can produce, and the ones that survive a
        serialise-then-parse round trip. */
    predicate HasTokenValue() {
      IsValueToken(value)
    }

    /** Serialisation: the name, `=`, the value, never quoted. For a valid
        parameter the first `=` of the text ends the name, so name and value
        can be read back. */
    function ToString(): (r: string)
      ensures |r| == |name| + 1 + |value|
      ensures Valid() ==> FirstIndexOf(r, '=') == |name|
      ensures Valid() ==> r[..|name|] == name && r[|name| + 1..] == value
    {
      var r := name + "=" + value;
      if Valid() then
        NameLacks(name, '=');
        FirstIndexOfAfter(name, '=', value);
        r
      else
        r
    }
  }

  /** The constructor: rejects a name that is not a restricted name,
      stores the value unchecked. */
  function New(name: string, value: string): (r: Result<Parameter, Error>)
    ensures r.Success? <==> IsRestrictedName(name)
    ensures r.Success? ==> r.value.Valid() && r.value.name == name && r.value.value == value
    ensures r.Failure? ==> r.error == DomainException(name)
  {
    if IsRestrictedName(name) then Success(Parameter(name, value))
    else Failure(DomainException(name))
  }

  /** The `key` and `value` captures of `~^(?<key>FORMAT)=(?<value>[\w\-.]+)$~`.
      Neither class holds `=`, so the key is everything before the first `=`. */
  function Capture(s: string): (r: Option<(string, string)>)
    ensures r.Some? ==> s == r.value.0 + "=" + r.value.1
    ensures r.Some? ==> IsRestrictedName(r.value.0) && IsValueToken(r.value.1)
  {
    var eq := FirstIndexOf(s, '=');
    if eq < |s| && IsRestrictedName(s[..eq]) && IsValueToken(s[eq + 1..]) then
      CutAt(s, eq);
      Some((s[..eq], s[eq + 1..]))
    else
      None
  }

  /** Parsing `key=value`: the captures handed to the constructor. A string
      the expression does not match yields no parameter. The source calls
      `toString` on the optional captures, which fails on every input; this
      follows the evident intent, the optional result `MediaType` expects. */
  function Of(s: string): (r: Option<Parameter>)
    ensures r.Some? ==> r.value.Valid() && r.value.HasTokenValue()
    ensures r.Some? ==> r.value.ToString() == s
  {
    match Capture(s)
    case None => None
    case Some((key, value)) => New(key, value).ToOption()
  }

  /** Whatever `Of` captures passes the constructor's name check, so the
      parser never builds an invalid parameter nor raises. */
  lemma CapturePassesConstructor(s: string)
    requires Capture(s).Some?
    ensures New(Capture(s).value.0, Capture(s).value.1).Success?
  {
  }

  /** `Of` accepts exactly the serialisations of valid parameters whose
      value is a token, and returns that parameter. */
  lemma OfExactly(s: string, p: Parameter)
    ensures Of(s) == Some(p) <==> (s == p.ToString() && p.Valid() && p.HasTokenValue())
  {
    if s == p.ToString() && p.Valid() && p.HasTokenValue() {
      NameHasNoDelimiter(p.name);
      FirstIndexOfAfter(p.name, '=', p.value);
      var eq := FirstIndexOf(s, '=');
      assert s[..eq] == p.name;
      assert s[eq + 1..] == p.value;
    }
  }

  /** Serialise-then-parse is the identity on parameters with token values. */
  lemma OfToString(p: Parameter)
    requires p.Valid() && p.HasTokenValue()
    ensures Of(p.ToString()) == Some(p)
  {
    OfExactly(p.ToString(), p);
  }

  /** A fragment holding a double quote, a space, a semicolon or a comma
      anywhere is rejected: quoted values such as `charset="UTF-8"` do not
      parse. */
  lemma OfRejectsDelimiter(s: string, i: nat)
    requires i < |s| && (s[i] == '"' || s[i] == ' ' || s[i] == ';' || s[i] == ',')
    ensures Of(s) == None
  {
    if Of(s).Some? {
      var p := Of(s).value;
      NameHasNoDelimiter(p.name);
      TokenHasNoDelimiter(p.value);
    }
  }

  /** A fragment with an empty value is rejected. */
  lemma OfRejectsEmptyValue(key: string)
    ensures Of(key + "=") == None
  {
    var s := key + "=";
    assert s[|s| - 1] == '=';
    if Of(s).Some? {
      var p := Of(s).value;
      TokenHasNoDelimiter(p.value);
    }
  }
}

=== FILE: splitting.dfy ===
/** Splitting a media type string on the separator expression `[;,] ?`
    (a semicolon or comma and at most one following space), and the
    joining that serialisation uses. */
module Splitting {

  /** `[;,]` */
  predicate IsSeparator(c: char) {
    c == ';' || c == ','
  }

  predicate NoSeparator(s: string) {
    forall i :: 0 <= i < |s| ==> !IsSeparator(s[i])
  }

  /** One of the separators the splitter consumes whole. A bare `;` or `,`
      is only consumed alone when no space follows it, since the optional
      space is matched greedily. */
  predicate IsSeparatorText(sep: string) {
    sep == ";" || sep == "," || sep == "; " || sep == ", "
  }

  /** Index of the first separator character of `s`, or `|s|`. */
  function FirstSeparator(s: string): (i: nat)
    ensures i <= |s|
    ensures i < |s| ==> IsSeparator(s[i])
    ensures NoSeparator(s[..i])
    decreases |s|
  {
    if |s| == 0 then 0
    else if IsSeparator(s[0]) then 0
    else
      var j := FirstSeparator(s[1..]);
      assert s[..j + 1] == [s[0]] + s[1..][..j];
      j + 1
  }

  /** `preg_split('~[;,] ?~', s)`: the fragments between separators, empty
      ones included. */
  function Split(s: string): (r: seq<string>)
    ensures |r| >= 1
    ensures r[0] == s[..FirstSeparator(s)]
    ensures forall k :: 0 <= k < |r| ==> NoSeparator(r[k])
    decreases |s|
  {
    var i := FirstSeparator(s);
    if i == |s| then [s]
    else
      var rest := if i + 1 < |s| && s[i + 1] == ' ' then s[i + 2..] else s[i + 1..];
      [s[..i]] + Split(rest)
  }

  /** Concatenation of `parts` with `sep` between consecutive ones. */
  function Join(sep: string, parts: seq<string>): (r: string)
    ensures |parts| > 0 ==> |r| >= |parts[0]| && r[..|parts[0]|] == parts[0]
  {
    if |parts| == 0 then ""
    else if |parts| == 1 then parts[0]
    else parts[0] + sep + Join(sep, parts[1..])
  }

  /** The first separator of `x + [c] + y` is `c` when `x` holds none. */
  lemma {:induction false} FirstSeparatorAfter(x: string, c: char, y: string)
    requires NoSeparator(x) && IsSeparator(c)
    ensures FirstSeparator(x + [c] + y) == |x|
  {
    if |x| > 0 {
      assert (x + [c] + y)[1..] == x[1..] + [c] + y;
      FirstSeparatorAfter(x[1..], c, y);
    }
  }

  /** A string without separators is a single fragment. */
  lemma SplitPlain(s: string)
    requires NoSeparator(s)
    ensures Split(s) == [s]
  {
    assert s[..|s|] == s;
  }

  /** A separator ends the first fragment and is dropped whole; the rest
      is split independently. */
  lemma {:induction false} SplitAfter(head: string, sep: string, tail: string)
    requires NoSeparator(head)
    requires IsSeparatorText(sep)
    requires |sep| == 1 ==> tail == [] || tail[0] != ' '
    ensures Split(head + sep + tail) == [head] + Split(tail)
  {
    var s := head + sep + tail;
    var i := |head|;
    assert s == head + [sep[0]] + (sep[1..] + tail);
    FirstSeparatorAfter(head, sep[0], sep[1..] + tail);
    assert s[..i] == head;
    var rest := if i + 1 < |s| && s[i + 1] == ' ' then s[i + 2..] else s[i + 1..];
    if |sep| == 2 {
      assert s[i + 1] == ' ';
      assert s[i + 2..] == tail;
    } else if tail != [] {
      assert s[i + 1] == tail[0];
      assert s[i + 1..] == tail;
    }
    assert rest == tail;
  }

  /** Splitting undoes joining with `", "`, whatever the parts hold apart
      from separators. */
  lemma {:induction false} SplitJoin(parts: seq<string>)
    requires |parts| >= 1
    requires forall k :: 0 <= k < |parts| ==> NoSeparator(parts[k])
    ensures Split(Join(", ", parts)) == parts
  {
    if |parts| == 1 {
      SplitPlain(parts[0]);
    } else {
      SplitJoin(parts[1..]);
      SplitAfter(parts[0], ", ", Join(", ", parts[1..]));
    }
  }

  /** `sep[0] + parts[0] + sep[1] + parts[1] + ...`: fragments each
      preceded by the separator text written before it. */
  function Interleave(seps: seq<string>, parts: seq<string>): string
    requires |seps| == |parts|
  {
    if |parts| == 0 then "" else seps[0] + parts[0] + Interleave(seps[1..], parts[1..])
  }

  /** What a fragment may follow: any separator text, except that a bare
      `;` or `,` cannot be followed by a space (the splitter would take
      the space as part of the separator). */
  predicate CanFollow(sep: string, part: string) {
    IsSeparatorText(sep) && (|sep| == 1 ==> part == [] || part[0] != ' ')
  }

  /** Interleaved text is empty or starts with a separator character. */
  lemma {:induction false} InterleaveStart(seps: seq<string>, parts: seq<string>)
    requires |seps| == |parts|
    requires |parts| > 0 ==> IsSeparatorText(seps[0])
    ensures Interleave(seps, parts) == [] || IsSeparator(Interleave(seps, parts)[0])
  {
    if |parts| > 0 {
      assert Interleave(seps, parts) == seps[0] + (parts[0] + Interleave(seps[1..], parts[1..]));
    }
  }

  /** The fragment text after a separator, with everything interleaved
      after it, may still follow that separator. */
  lemma TailCanFollow(sep: string, part: string, seps: seq<string>, parts: seq<string>)
    requires |seps| == |parts|
    requires CanFollow(sep, part)
    requires |parts| > 0 ==> IsSeparatorText(seps[0])
    ensures CanFollow(sep, part + Interleave(seps, parts))
  {
    var tail := part + Interleave(seps, parts);
    if part == [] {
      assert tail == Interleave(seps, parts);
      InterleaveStart(seps, parts);
    } else {
      assert tail[0] == part[0];
    }
  }

  /** Splitting a head followed by fragments, with any mix of separators
      between them, recovers the head and the fragments. */
  lemma {:induction false} SplitInterleave(head: string, seps: seq<string>, parts: seq<string>)
    requires |seps| == |parts|
    requires NoSeparator(head)
    requires forall k :: 0 <= k < |parts| ==> NoSeparator(parts[k]) && CanFollow(seps[k], parts[k])
    ensures Split(head + Interleave(seps, parts)) == [head] + parts
    decreases |parts|
  {
    if |parts| == 0 {
      assert head + Interleave(seps, parts) == head;
      SplitPlain(head);
    } else {
      var seps', parts' := seps[1..], parts[1..];
      assert [parts[0]] + parts' == parts;
      var tail := parts[0] + Interleave(seps', parts');
      assert head + Interleave(seps, parts) == head + seps[0] + tail;
      assert CanFollow(seps[0], parts[0]) && NoSeparator(parts[0]);
      assert forall k :: 0 <= k < |parts'| ==> parts'[k] == parts[k + 1] && seps'[k] == seps[k + 1];
      assert |parts'| > 0 ==> CanFollow(seps'[0], parts'[0]);
      TailCanFollow(seps[0], parts[0], seps', parts');
      SplitInterleave(parts[0], seps', parts');
      assert Split(tail) == [parts[0]] + parts';
      SplitAfter(head, seps[0], tail);
    }
  }
}

=== FILE: wrappers.dfy ===
/** Absence and failure carriers used in place of the source's `Maybe`
    values and thrown exceptions. */
module Wrappers {

  /** An optional value: `None` is the source's `Maybe::nothing()`. */
  datatype Option<+T> = None | Some(value: T)

  /** A value or the error that construction or parsing raised instead. */
  datatype Result<+T, +E> = Success(value: T) | Failure(error: E) {

    /** Forgets the error, as the fallible entry points do. */
    function ToOption(): (r: Option<T>)
      ensures r.Some? <==> Success?
      ensures Success? ==> r.value == value
    {
      match this
      case Success(v) => Some(v)
      case Failure(_) => None
    }
  }

  /** The two exception classes the library throws, each carrying the
      offending string as its message. */
  datatype Error =
    | InvalidTopLevelType(value: string)
    | DomainException(value: string)
}
